=== FILE: README.md ===
# NFCGate relay server — a Dafny model

This project models the relay core of the NFCGate server (`services/nfcgate_server/src/server.py`).
Clients connect and send length-prefixed frames that carry a one-octet session number. The first
frame with a nonzero length and a nonzero session number associates the client with that session.
Every payload a client sends goes through the configured plugin chain. The result is then written, as length-prefixed
records, to every other member of the sender's session.

The model has seven modules:

- `Wrappers`: `Option` and `Result`.
- `Bytes`: octets and big-endian unsigned integers.
- `Framing`: the inbound header `!IB`, the outbound 4-octet length prefix, and how the handler's two
  buffered reads split the peer's byte stream into frames.
- `Pipeline`: `PluginHandler.filter`. A payload is `Single(bytes)` or `Batch(items)`. A batch may be
  nested, because a stage applied to the head of a list may itself return a list.
- `Registry`: the `clients` table with `add_client` (`Join`), `remove_client` (`Leave`) and
  `send_to_clients` (`Broadcast`). A broadcast produces the sequence of `wfile.write` calls it makes.
- `Handler`: the body of the `handle` loop for one frame (`HandleFrame`), and `finish`.
- `Relay`: the whole server as a world of session table plus live handlers. Events from any number of
  connections are interleaved (connect, whole frame received, reads ended). `Serve` runs one
  connection from its raw input bytes to `finish`.

The main theorem is `Relay.RelayInvariant`. Start from an empty server and apply any sequence of
events. Afterwards, a client is in the list of session `s` exactly when its handler's current
session is `s`, and no list holds it twice. A client whose handler has finished is in no list, and
`list.remove` never raises.

Python exceptions become error values rather than preconditions:

- `data[0]` on an empty list (`IndexError`) becomes `Pipeline.EmptyBatch`.
- `list.remove` of an absent client (`ValueError`) becomes `Registry.NotAMember`.
- `int.to_bytes` of a length of 2^32 or more (`OverflowError`) becomes `None` from
  `Framing.LengthPrefix`.
- `wfile.write` of a list (`TypeError`) becomes `Registry.NotBytes`.

An exception in `handle` ends the loop, and `socketserver` still runs `finish`, so the model runs
`finish` after every exit.

A short payload read does not end the connection. Line 68 never checks the length of what
`rfile.read(msg_len)` returned. So when the peer closes early, the frame is relayed with the octets
that did arrive (`Framing.ReadFrame`). A timeout during that read is a different case. It raises an
exception that the code does not catch, so the frame is dropped and `finish` runs.

## Model

| member | source | states |
|---|---|---|
| Bytes.FromBigEndian | services/nfcgate_server/src/server.py:67 | the integer denoted by big-endian octets is below 256^width |
| Bytes.ToBigEndian | services/nfcgate_server/src/server.py:153 | writing `n` in `width` octets gives exactly `width` octets that decode back to `n` |
| Bytes.ToBigEndianOfFromBigEndian | services/nfcgate_server/src/server.py:67 | decoding and re-encoding at the same width returns the original octets |
| Bytes.FromBigEndianInjective | services/nfcgate_server/src/server.py:67 | two equal-width octet strings with the same value are equal |
| Framing.DecodeHeader | services/nfcgate_server/src/server.py:67 | `unpack("!IB")` gives a length below 2^32 taken from octets 0-3 (big-endian), and a session equal to octet 4 |
| Framing.EncodeHeader | services/nfcgate_server/src/server.py:67 | a header with a length below 2^32 packs to 5 octets that unpack to the same fields |
| Framing.EncodeDecodeHeader | services/nfcgate_server/src/server.py:67 | every 5-octet header is the packing of the fields it unpacks to |
| Framing.LengthPrefix | services/nfcgate_server/src/server.py:153 | `int.to_bytes(n, 4, 'big')` succeeds exactly when n < 2^32, and then gives 4 octets whose value is n |
| Framing.EncodeRecord | services/nfcgate_server/src/server.py:153-154 | an outbound record is 4 + len(msg) octets and ends with msg itself |
| Framing.DecodeRecordSplits | services/nfcgate_server/src/server.py:153-154 | whatever a receiver splits off its stream is a record encoding followed by the untouched rest |
| Framing.RecordRoundTrip | services/nfcgate_server/src/server.py:153-154 | a receiver decodes an encoded record back to exactly the message and leaves the following octets alone |
| Framing.RecordsRoundTrip | services/nfcgate_server/src/server.py:152-154 | records written back to back decode to the same messages in the same order |
| Framing.DecodeRecordsComplete | services/nfcgate_server/src/server.py:152-154 | a stream that decodes completely is exactly the encoding of the messages it decodes to |
| Framing.ReadFrame | services/nfcgate_server/src/server.py:58-68 | fewer than 5 octets means a short header; a payload timeout happens exactly when the stream times out before the announced length; otherwise the consumed octets are the header then the payload, and the payload is short only at an orderly end of stream |
| Framing.ReadFrameRoundTrip | services/nfcgate_server/src/server.py:60-68 | a complete frame a client sends is read back as exactly that frame, with the rest of the stream intact |
| Pipeline.ApplyStage | services/nfcgate_server/src/server.py:28-36 | a stage sees non-list data whole, sees only the head of a list (whose tail stays put), and fails only on an empty list |
| Pipeline.Filter | services/nfcgate_server/src/server.py:26-38 | zero stages return the input unchanged; on a list it fails exactly when stages remain and the list is empty; otherwise the list keeps its length and its tail |
| Pipeline.ComposeFirst | services/nfcgate_server/src/server.py:27 | the composition of the stages in order is the first stage followed by the composition of the rest |
| Pipeline.FilterBatch | services/nfcgate_server/src/server.py:28-34 | on a non-empty list the result is [pN(...p1(head))] followed by the unchanged tail |
| Pipeline.FilterIgnoresTail | services/nfcgate_server/src/server.py:28-34 | the tail of a list never influences the head of the result |
| Pipeline.FilterSingle | services/nfcgate_server/src/server.py:30-36 | on non-list data, while every stage is handed a non-list, the result is the composition pN(...p1(data)) |
| Pipeline.FilterAppend | services/nfcgate_server/src/server.py:27-38 | running a configuration split in two is running the second part on the result of the first |
| Registry.IndexOf | services/nfcgate_server/src/server.py:137 | the position returned holds the client and no earlier position does |
| Registry.RemoveFirst | services/nfcgate_server/src/server.py:137 | `list.remove` deletes the first occurrence only and keeps the order of the rest |
| Registry.RemoveFirstMembers | services/nfcgate_server/src/server.py:137 | in a list without repetitions, removal keeps exactly the other clients |
| Registry.RemoveFirstNoDup | services/nfcgate_server/src/server.py:137 | removal from a list without repetitions leaves a list without repetitions |
| Registry.RemoveAppended | services/nfcgate_server/src/server.py:130-137 | removing a client just appended to a list it was not in restores the list |
| Registry.Join | services/nfcgate_server/src/server.py:123-130 | `add_client` with None changes nothing; otherwise the client is appended after the session's members (an absent session starts empty) and every other session is unchanged |
| Registry.Leave | services/nfcgate_server/src/server.py:133-137 | `remove_client` with None or an unknown session changes nothing; otherwise it fails exactly when the client is absent, and else removes the first occurrence from that session only |
| Registry.LeaveUndoesJoin | services/nfcgate_server/src/server.py:123-137 | leaving right after joining a session one was not in restores every list |
| Registry.SendMessages | services/nfcgate_server/src/server.py:149-154 | all writes of the inner loop go to the one recipient, and it fails exactly when some message is not bytes shorter than 2^32 |
| Registry.SendMessagesStream | services/nfcgate_server/src/server.py:152-154 | a recipient's stream is the records of the messages in sequence order |
| Registry.SendToMembers | services/nfcgate_server/src/server.py:144-154 | no write goes to the originator, and every write goes to a member |
| Registry.Broadcast | services/nfcgate_server/src/server.py:140-154 | a None or unknown session writes nothing; the originator is never written to |
| Registry.SendToMembersDelivers | services/nfcgate_server/src/server.py:144-154 | with sendable messages and no repeated member, each member other than the originator receives exactly all records in order, and nobody else receives anything |
| Registry.BroadcastDelivers | services/nfcgate_server/src/server.py:140-154 | the same for a whole `send_to_clients` call, where non-list data is sent as a one-element list |
| Registry.BroadcastDecodes | services/nfcgate_server/src/server.py:149-154 | every recipient decodes its stream back to exactly the broadcast messages |
| Registry.SendMessagesAborts | services/nfcgate_server/src/server.py:152-154 | when a message cannot be written, the recipient has received the records of the messages before it, then only the 4-octet prefix of a list message (which raises `TypeError`) or nothing of an oversized one (which raises `OverflowError`), and nothing after it |
| Registry.SendToMembersAborts | services/nfcgate_server/src/server.py:144-154 | since every recipient is sent the same messages, a failing broadcast is exactly the writes to the first member other than the originator up to the exception, and no later member receives anything |
| Registry.SendToMembersFails | services/nfcgate_server/src/server.py:144-154 | a broadcast raises exactly when someone besides the originator is in the list and some message is not sendable |
| Registry.SendToMembersOrder | services/nfcgate_server/src/server.py:144-147 | recipients are written to in join order |
| Handler.HandleFrame | services/nfcgate_server/src/server.py:71-84 | length 0 ends the loop in any state and touches nothing; session 0 with no association ends it without a join; the same session leaves the table alone; a different session (None differs from every number) leaves the old session and then joins the new one; once associated, a failing plugin chain writes nothing and ends the loop, otherwise the chain's result is broadcast to the frame's session from the sender and the loop goes on exactly when that broadcast raised nothing; the sender is never written to |
| Handler.HandleFrameRelays | services/nfcgate_server/src/server.py:76-84 | when no plugin is handed a list and the chain ends in sendable bytes, each member of the frame's session except the sender receives exactly one record of pN(...p1(payload)), nobody else receives anything, and the loop goes on |
| Handler.FirstFrameOnlyJoins | services/nfcgate_server/src/server.py:72-81 | a first frame with a nonzero session causes one join and no leave |
| Handler.ReassociationMoves | services/nfcgate_server/src/server.py:76-81 | a frame for another session, 0 included, moves the client from the old list to the new one and keeps the other old members |
| Handler.Finish | services/nfcgate_server/src/server.py:86-89 | `finish` does nothing without a session; otherwise the client is no longer in its session's list and the others stay |
| Relay.Close | services/nfcgate_server/src/server.py:86-89 | after `finish` the handler is gone and only `remove_client` can have failed |
| Relay.Step | services/nfcgate_server/src/server.py:55-89 | one event changes only its own connection's state; a disconnect removes it; the sender receives nothing |
| Relay.EndingFrameFinishes | services/nfcgate_server/src/server.py:72-89 | a frame that ends the loop by a `break` or an exception runs `finish` at once: the handler is gone and its client is in no list; a frame ending the loop before anything is done writes nothing and acts as the end of the reads |
| Relay.Detach | services/nfcgate_server/src/server.py:86-89 | in a consistent world, leaving the current session never raises and leaves the client in no list |
| Relay.Attach | services/nfcgate_server/src/server.py:79-81 | a client in no list that joins a session keeps the world consistent |
| Relay.Drop | services/nfcgate_server/src/server.py:86-89 | a client in no list can be forgotten without breaking consistency |
| Relay.CloseConsistent | services/nfcgate_server/src/server.py:86-89 | `finish` from a consistent world never raises and keeps the world consistent |
| Relay.StepPreserves | services/nfcgate_server/src/server.py:55-89 | every event keeps "in list s exactly when current session is s, at most once" and never makes `list.remove` raise |
| Relay.FrameReachesSession | services/nfcgate_server/src/server.py:72-84 | in a consistent world, such a frame reaches exactly the other handlers whose current session is the frame's session, as one record of the filtered payload; nothing raises and the sender stays associated with that session |
| Relay.RunPreserves | services/nfcgate_server/src/server.py:55-89 | the same for any sequence of events |
| Relay.RelayInvariant | services/nfcgate_server/src/server.py:76-89 | from a fresh server, after any interleaving, membership matches each handler's session, lists hold no repetitions, finished clients are in no list, and `list.remove` never raised |
| Relay.Frames | services/nfcgate_server/src/server.py:58-68 | the events a connection's input produces are one frame per successful read, in order, and end with the end of its reads |
| Relay.Serve | services/nfcgate_server/src/server.py:55-90 | one connection run from its raw bytes to `finish` has exactly the effect and the writes of its events (accepted, each frame it reads in order until one ends the loop, then the end of its reads); it keeps the world consistent, leaves its client in no list, and changes no other connection |
| Relay.RelayPlain | services/nfcgate_server/src/server.py:76-84 | with no plugins, a frame for the current session only writes the payload's records to the session's members |
| Relay.AbcJoinFirst | services/nfcgate_server/src/server.py:72-84 | a client alone in session 7 joins it and reaches no recipient |
| Relay.AbcJoinSecond | services/nfcgate_server/src/server.py:76-84 | a second client joins behind the first, and the first receives the record 00 00 00 01 79 |
| Relay.AbcRelay | services/nfcgate_server/src/server.py:84 | "abc" from client 1 reaches client 2 as 00 00 00 03 61 62 63, and the table is unchanged |
| Relay.MoveToNine | services/nfcgate_server/src/server.py:76-81 | moving from session 7 to 9 leaves the other member in 7 and puts the mover alone in 9 |
| Relay.MovedClientNotReached | services/nfcgate_server/src/server.py:140-147 | after the move, a frame to session 7 no longer reaches the client that left |

## Left out

- TLS context creation, certificate loading and socket wrapping (lines 101-118, 173-210) are calls into `ssl`.
- Thread-per-connection dispatch and the asyncio loop (lines 93-96, 215-233) are left out. The model treats each whole received frame as one atomic event: the leave, join, plugin chain and broadcast of lines 76-84 run without another handler in between, and events are interleaved only at frame boundaries.
- `Relay.RelayInvariant`, `Relay.StepPreserves` and `Relay.RunPreserves` are not claimed for the threaded server, which takes no locks. Between `remove_client` (line 78) and `add_client` (line 81) the client is in no list while its `self.session` still names the old session, so the invariant does not hold there. Two handlers that both find a session missing at lines 127-128 can each create a fresh list, and one join is then lost.
- Socket I/O is abstracted. The peer's input is the byte stream it sends plus how the stream ends (orderly close or idle timeout). The 300-second timer value is not modelled. Write errors on a recipient's socket are not modelled, so every write succeeds.
- Dynamic plugin loading with `__import__` (lines 22-24) is a foreign call. Stages are given as pure functions `Payload -> Payload`.
- A plugin's per-connection `client.state` dictionary and its logging callback are not modelled. A stage that depends on earlier calls through that state is outside the model.
- A plugin stage that raises, or that returns something other than bytes or a list, is not modelled.
- Logging (`log`, `print`, `datetime.now()`) and the "Publish reached" count (lines 45-46, 69, 120-121, 131, 138, 156) are diagnostics only.
- `parse_args` and the environment/`dotenv` configuration (lines 13-15, 159-212) are command-line plumbing.
- `services/httptest_server/src/server.py` only serves static files over `http.server`. It is not part of this model.
- Empty session lists are never removed from the table. The model keeps this behaviour and does not add garbage collection.

=== FILE: bytes.dfy ===
/** Octets and big-endian unsigned integers, as `struct` and `int.to_bytes` use them. */
module Bytes {

  /** One element of a Python `bytes` object. */
  type byte = x: int | 0 <= x < 256

  type Bytes = seq<byte>

  /** 256 raised to the `k`: the number of values `k` octets can hold. */
  function Pow256(k: nat): (r: nat)
    ensures r >= 1
  {
    if k == 0 then 1 else 256 * Pow256(k - 1)
  }

  /** The unsigned integer that `b` denotes, most significant octet first. */
  function FromBigEndian(b: Bytes): (n: nat)
    ensures n < Pow256(|b|)
  {
    if |b| == 0 then 0
    else
      var hi := FromBigEndian(b[..|b| - 1]);
      assert hi <= Pow256(|b| - 1) - 1;
      assert hi * 256 <= Pow256(|b| - 1) * 256 - 256;
      hi * 256 + b[|b| - 1]
  }

  /** `n` written in exactly `width` octets, most significant first
      (Python's `int.to_bytes(n, width, byteorder='big')` when it does not overflow). */
  function ToBigEndian(n: nat, width: nat): (b: Bytes)
    requires n < Pow256(width)
    ensures |b| == width
    ensures FromBigEndian(b) == n
  {
    if width == 0 then []
    else
      assert n / 256 < Pow256(width - 1);
      var b := ToBigEndian(n / 256, width - 1) + [n % 256];
      assert b[..|b| - 1] == ToBigEndian(n / 256, width - 1);
      b
  }

  /** Decoding then re-encoding at the same width gives the octets back. */
  lemma {:induction false} ToBigEndianOfFromBigEndian(b: Bytes)
    ensures ToBigEndian(FromBigEndian(b), |b|) == b
  {
    if |b| > 0 {
      var init := b[..|b| - 1];
      ToBigEndianOfFromBigEndian(init);
      var n := FromBigEndian(b);
      assert n == FromBigEndian(init) * 256 + b[|b| - 1];
      assert n / 256 == FromBigEndian(init);
      assert n % 256 == b[|b| - 1];
      assert b == init + [b[|b| - 1]];
    }
  }

  /** Two octet strings of one width denote the same integer only if they are equal. */
  lemma FromBigEndianInjective(a: Bytes, b: Bytes)
    requires |a| == |b|
    requires FromBigEndian(a) == FromBigEndian(b)
    ensures a == b
  {
    ToBigEndianOfFromBigEndian(a);
    ToBigEndianOfFromBigEndian(b);
  }
}

=== FILE: framing.dfy ===
/** The wire framing of the relay: the inbound 5-octet header `!IB` followed by the
    payload, and the outbound record, a 4-octet big-endian length followed by the payload. */
module Framing {
  import opened Wrappers
  import opened Bytes

  /** Size of the inbound header: a 4-octet length and a 1-octet session. */
  const HeaderSize: nat := 5

  /** 2^32: the first length that no longer fits in 4 octets. */
  const LengthBound: nat := 0x1_0000_0000

  lemma LengthBoundIsFourOctets()
    ensures Pow256(4) == LengthBound
  {
  }

  /** The header fields as `struct.unpack("!IB", ...)` returns them. */
  datatype Header = Header(length: nat, session: byte)

  /** `struct.unpack("!IB", h)`: an unsigned big-endian length in octets 0-3, the session in octet 4. */
  function DecodeHeader(h: Bytes): (hd: Header)
    requires |h| == HeaderSize
    ensures hd.length < LengthBound
    ensures hd.length == FromBigEndian(h[..4]) && hd.session == h[4]
  {
    LengthBoundIsFourOctets();
    Header(FromBigEndian(h[..4]), h[4])
  }

  /** What a sending client writes before its payload: the length in 4 big-endian octets, then the session octet. */
  function EncodeHeader(hd: Header): (h: Bytes)
    requires hd.length < LengthBound
    ensures |h| == HeaderSize
    ensures DecodeHeader(h) == hd
  {
    LengthBoundIsFourOctets();
    var h := ToBigEndian(hd.length, 4) + [hd.session];
    assert h[..4] == ToBigEndian(hd.length, 4);
    h
  }

  /** Every 5-octet header is the encoding of the fields it decodes to. */
  lemma EncodeDecodeHeader(h: Bytes)
    requires |h| == HeaderSize
    ensures EncodeHeader(DecodeHeader(h)) == h
  {
    ToBigEndianOfFromBigEndian(h[..4]);
    assert h == h[..4] + [h[4]];
  }

  /** The 4-octet big-endian length written before each outbound message; `None` stands for the
      `OverflowError` raised when `n` does not fit in 4 octets. */
  function LengthPrefix(n: nat): (r: Option<Bytes>)
    ensures r.Some? <==> n < LengthBound
    ensures r.Some? ==> |r.value| == 4 && FromBigEndian(r.value) == n
  {
    LengthBoundIsFourOctets();
    if n < LengthBound then Some(ToBigEndian(n, 4)) else None
  }

  /** One outbound record: the length prefix, then the message itself. */
  function EncodeRecord(msg: Bytes): (r: Bytes)
    requires |msg| < LengthBound
    ensures |r| == 4 + |msg| && r[4..] == msg
  {
    LengthPrefix(|msg|).value + msg
  }

  /** How a receiving client splits one record off the front of what it read:
      `None` when fewer than 4 length octets or fewer than the announced payload octets are there. */
  function DecodeRecord(s: Bytes): (r: Option<(Bytes, Bytes)>)
    ensures r.Some? ==> |r.value.1| < |s|
  {
    if |s| < 4 then None
    else
      var n := FromBigEndian(s[..4]);
      if |s| - 4 < n then None else Some((s[4..4 + n], s[4 + n..]))
  }

  /** A decoded record followed by the rest of the stream re-encodes to that stream. */
  lemma DecodeRecordSplits(s: Bytes)
    requires DecodeRecord(s).Some?
    ensures var (msg, rest) := DecodeRecord(s).value;
            |msg| < LengthBound && s == EncodeRecord(msg) + rest
  {
    var (msg, rest) := DecodeRecord(s).value;
    var n := FromBigEndian(s[..4]);
    assert msg == s[4..4 + n] && rest == s[4 + n..];
    LengthBoundIsFourOctets();
    assert |msg| == n < LengthBound;
    ToBigEndianOfFromBigEndian(s[..4]);
    assert LengthPrefix(|msg|).value == s[..4];
    assert EncodeRecord(msg) == s[..4] + msg;
    assert s == s[..4] + msg + rest;
  }

  /** The receiver recovers exactly the message and leaves the following octets untouched. */
  lemma RecordRoundTrip(msg: Bytes, rest: Bytes)
    requires |msg| < LengthBound
    ensures DecodeRecord(EncodeRecord(msg) + rest) == Some((msg, rest))
  {
    var s := EncodeRecord(msg) + rest;
    assert s[..4] == LengthPrefix(|msg|).value;
    assert s[4..4 + |msg|] == msg;
    assert s[4 + |msg|..] == rest;
  }

  ghost predicate AllFit(msgs: seq<Bytes>)
  {
    forall i :: 0 <= i < |msgs| ==> |msgs[i]| < LengthBound
  }

  /** Several records back to back, in sequence order. */
  function EncodeRecords(msgs: seq<Bytes>): (r: Bytes)
    requires AllFit(msgs)
    ensures |msgs| == 0 <==> r == []
  {
    if |msgs| == 0 then [] else EncodeRecord(msgs[0]) + EncodeRecords(msgs[1..])
  }

  /** Split a whole received stream into records; `None` if it ends inside a record. */
  function DecodeRecords(s: Bytes): (r: Option<seq<Bytes>>)
    decreases |s|
  {
    if |s| == 0 then Some([])
    else match DecodeRecord(s)
      case None => None
      case Some((msg, rest)) =>
        match DecodeRecords(rest)
        case None => None
        case Some(msgs) => Some([msg] + msgs)
  }

  /** Encoding a sequence of messages and decoding the stream gives the sequence back. */
  lemma {:induction false} RecordsRoundTrip(msgs: seq<Bytes>)
    requires AllFit(msgs)
    ensures DecodeRecords(EncodeRecords(msgs)) == Some(msgs)
  {
    if |msgs| > 0 {
      var s := EncodeRecords(msgs);
      RecordRoundTrip(msgs[0], EncodeRecords(msgs[1..]));
      RecordsRoundTrip(msgs[1..]);
      assert [msgs[0]] + msgs[1..] == msgs;
    }
  }

  /** Conversely, a stream that decodes completely is exactly the encoding of what it decodes to. */
  lemma {:induction false} DecodeRecordsComplete(s: Bytes)
    requires DecodeRecords(s).Some?
    ensures AllFit(DecodeRecords(s).value)
    ensures EncodeRecords(DecodeRecords(s).value) == s
    decreases |s|
  {
    if |s| > 0 {
      var (msg, rest) := DecodeRecord(s).value;
      DecodeRecordSplits(s);
      DecodeRecordsComplete(rest);
      var msgs := DecodeRecords(s).value;
      assert msgs == [msg] + DecodeRecords(rest).value;
      assert msgs[1..] == DecodeRecords(rest).value;
    }
  }

  /** How the peer's byte stream stops: an orderly close (reads come back short)
      or silence until the idle timeout fires (reads raise `socket.timeout`). */
  datatype Ending = Closed | TimedOut

  /** One inbound frame: the header's length and session, and the payload octets actually read. */
  datatype Frame = Frame(length: nat, session: byte, payload: Bytes)

  /** The result of one pass of the handler's reads.
      `HeaderShort`: the 5-octet read came back short or timed out, and the loop breaks.
      `PayloadTimeout`: the payload read timed out, which is not caught and ends the handler. */
  datatype Read = Received(frame: Frame, rest: Bytes) | HeaderShort | PayloadTimeout

  /** `rfile.read(5)` then `rfile.read(msg_len)` over the octets the peer still has to deliver.
      A buffered read returns fewer octets only at end of stream; the short payload is kept as it is. */
  function ReadFrame(input: Bytes, ending: Ending): (r: Read)
    ensures r.HeaderShort? <==> |input| < HeaderSize
    ensures r.PayloadTimeout? <==>
              |input| >= HeaderSize && ending == TimedOut
              && DecodeHeader(input[..HeaderSize]).length > |input| - HeaderSize
    ensures r.Received? ==>
              && r.frame.length < LengthBound
              && input == EncodeHeader(Header(r.frame.length, r.frame.session)) + r.frame.payload + r.rest
              && |r.frame.payload| <= r.frame.length
              && (|r.frame.payload| < r.frame.length ==> ending == Closed && r.rest == [])
  {
    if |input| < HeaderSize then HeaderShort
    else
      var hd := DecodeHeader(input[..HeaderSize]);
      var avail := input[HeaderSize..];
      EncodeDecodeHeader(input[..HeaderSize]);
      if hd.length <= |avail| then
        assert input == input[..HeaderSize] + avail[..hd.length] + avail[hd.length..];
        Received(Frame(hd.length, hd.session, avail[..hd.length]), avail[hd.length..])
      else if ending == Closed then
        assert input == input[..HeaderSize] + avail + [];
        Received(Frame(hd.length, hd.session, avail), [])
      else
        assert |avail| == |input| - HeaderSize && ending == TimedOut;
        PayloadTimeout
  }

  /** What a well-behaved sender writes for one frame. */
  function EncodeFrame(f: Frame): (r: Bytes)
    requires |f.payload| == f.length < LengthBound
    ensures |r| == HeaderSize + f.length
  {
    EncodeHeader(Header(f.length, f.session)) + f.payload
  }

  /** A complete frame is read back exactly, however the stream later ends. */
  lemma ReadFrameRoundTrip(f: Frame, rest: Bytes, ending: Ending)
    requires |f.payload| == f.length < LengthBound
    ensures ReadFrame(EncodeFrame(f) + rest, ending) == Received(f, rest)
  {
    var input := EncodeFrame(f) + rest;
    var h := EncodeHeader(Header(f.length, f.session));
    assert input[..HeaderSize] == h;
    assert input[HeaderSize..] == f.payload + rest;
    assert (f.payload + rest)[..f.length] == f.payload;
    assert (f.payload + rest)[f.length..] == rest;
  }
}

=== FILE: handler.dfy ===
/** One pass of `NFCGateClientHandler.handle` over a frame already read, and `finish`. */
module Handler {
  import opened Wrappers
  import opened Framing
  import opened Pipeline
  import opened Registry

  /** Why the handler's loop ended on this frame.
      `EmptyFrame` and `Unassociated` are the two `break`s; the others are exceptions raised by
      `remove_client`, by the plugin chain and by `send_to_clients`. */
  datatype Exit = EmptyFrame | Unassociated | LeaveFault | PipelineFault | SendFault

  /** The table and the handler's `self.session` after the frame, the writes it caused,
      and whether the loop ended. */
  datatype Outcome = Outcome(clients: Clients, session: Option<Session>, writes: seq<Write>, exit: Option<Exit>)

  /** True when the frame ends the loop before anything is done (line 72): its length is zero,
      or it names session 0 while the handler has no session yet. */
  predicate Ends(cur: Option<Session>, f: Frame)
  {
    f.length == 0 || (f.session == 0 && cur.None?)
  }

  /** Lines 72-84 for one frame `f`, handled by client `self` whose session is `cur`. */
  function HandleFrame(clients: Clients, stages: seq<Stage>, self: ClientId, cur: Option<Session>, f: Frame): (o: Outcome)
    // A zero length ends the loop in any state, and touches nothing.
    ensures f.length == 0 ==> o == Outcome(clients, cur, [], Some(EmptyFrame))
    // Session 0 before any association ends the loop before any join.
    ensures f.length > 0 && f.session == 0 && cur.None? ==> o == Outcome(clients, cur, [], Some(Unassociated))
    // A frame for the current session leaves the table as it was.
    ensures f.length > 0 && cur == Some(f.session) ==> o.clients == clients && o.session == cur
    // A frame for another session (unset counts as different from every number, 0 included):
    // first the client leaves its old session, then joins the new one.
    ensures !Ends(cur, f) && cur != Some(f.session) ==>
              match Leave(clients, self, cur)
              case Failure(_) => o == Outcome(clients, cur, [], Some(LeaveFault))
              case Success(left) => o.clients == Join(left, self, Some(f.session)) && o.session == Some(f.session)
    // Whatever the plugins and broadcast do, the originator is never written to.
    ensures forall i :: 0 <= i < |o.writes| ==> o.writes[i].to != self
    // Only a frame that does not end the loop reaches the broadcast.
    ensures o.exit.None? ==> !Ends(cur, f) && o.session == Some(f.session)
    // Once the client is in the frame's session, the payload goes through the plugins; a failing
    // chain writes nothing, otherwise its result is broadcast to the session from this client,
    // and the loop goes on exactly when the broadcast raised nothing.
    ensures !Ends(cur, f) && (cur == Some(f.session) || Leave(clients, self, cur).Success?) ==>
              match Filter(stages, Single(f.payload))
              case Failure(_) => o.writes == [] && o.exit == Some(PipelineFault)
              case Success(data) =>
                var sent := Broadcast(o.clients, Some(f.session), data, self);
                o.writes == sent.writes && (o.exit.None? <==> sent.failure.None?)
  {
    if f.length == 0 then Outcome(clients, cur, [], Some(EmptyFrame))
    else if f.session == 0 && cur.None? then Outcome(clients, cur, [], Some(Unassociated))
    else
      var reassociated: Result<Clients, RegistryError> :=
        if cur != Some(f.session) then
          match Leave(clients, self, cur)
          case Failure(e) => Failure(e)
          case Success(left) => Success(Join(left, self, Some(f.session)))
        else Success(clients);
      match reassociated
      case Failure(_) => Outcome(clients, cur, [], Some(LeaveFault))
      case Success(joined) =>
        var session := Some(f.session);
        match Filter(stages, Single(f.payload))
        case Failure(_) => Outcome(joined, session, [], Some(PipelineFault))
        case Success(data) =>
          var sent := Broadcast(joined, session, data, self);
          Outcome(joined, session, sent.writes, if sent.failure.Some? then Some(SendFault) else None)
  }

  /** A first frame naming a nonzero session joins that session exactly once and leaves nothing. */
  lemma FirstFrameOnlyJoins(clients: Clients, stages: seq<Stage>, self: ClientId, f: Frame)
    requires f.length > 0 && f.session != 0
    ensures HandleFrame(clients, stages, self, None, f).clients == Join(clients, self, Some(f.session))
    ensures HandleFrame(clients, stages, self, None, f).session == Some(f.session)
  {
  }

  /** A later frame naming another session, 0 included, leaves the old session and then joins the new one;
      when the client was in the old list only once, it ends up in the new list and not in the old one. */
  lemma ReassociationMoves(clients: Clients, stages: seq<Stage>, self: ClientId, k: Session, f: Frame)
    requires f.length > 0 && f.session != k
    requires k in clients && self in clients[k] && NoDup(clients[k])
    ensures var o := HandleFrame(clients, stages, self, Some(k), f);
            && o.session == Some(f.session)
            && f.session in o.clients && self in o.clients[f.session]
            && self !in o.clients[k]
            && forall d :: d in clients[k] && d != self ==> d in o.clients[k]
  {
    var left := Finish(clients, self, Some(k));
    assert left.Success?;
  }

  /** The relay itself: when no plugin is handed a list and the chain ends in a sendable `bytes`
      object, every member of the frame's session other than the sender receives exactly one record
      holding `pN(...p1(payload))`, nobody else receives anything, and the loop goes on. */
  lemma HandleFrameRelays(clients: Clients, stages: seq<Stage>, self: ClientId, cur: Option<Session>, f: Frame, r: ClientId)
    requires !Ends(cur, f)
    requires cur == Some(f.session) || Leave(clients, self, cur).Success?
    requires StaysSingle(stages, Single(f.payload)) && Sendable(Compose(stages, Single(f.payload)))
    requires NoDup(Members(clients, f.session))
    requires cur != Some(f.session) ==> self !in Members(clients, f.session)
    ensures var o := HandleFrame(clients, stages, self, cur, f);
            && o.exit.None?
            && BytesTo(o.writes, r)
               == if r in Members(o.clients, f.session) && r != self
                  then EncodeRecord(Compose(stages, Single(f.payload)).bytes) else []
  {
    var o := HandleFrame(clients, stages, self, cur, f);
    var data := Compose(stages, Single(f.payload));
    assert NoDup(Members(o.clients, f.session)) by {
      if cur != Some(f.session) {
        var left := Leave(clients, self, cur).value;
        assert Members(left, f.session) == Members(clients, f.session);
        assert o.clients[f.session] == Members(clients, f.session) + [self];
      }
    }
    FilterSingle(stages, Single(f.payload));
    assert EncodeRecords(Contents(Messages(data))) == EncodeRecord(data.bytes) by {
      assert Contents(Messages(data)) == [data.bytes];
      assert [data.bytes][1..] == [];
    }
    if f.session in o.clients {
      BroadcastDelivers(o.clients, f.session, data, self, r);
    }
  }

  /** `finish`: the client leaves whatever session it is in. */
  function Finish(clients: Clients, self: ClientId, cur: Option<Session>): (r: Result<Clients, RegistryError>)
    ensures cur.None? ==> r == Success(clients)
    ensures r.Success? ==> r.value.Keys == clients.Keys
    ensures cur.Some? && cur.value in clients && NoDup(clients[cur.value]) && r.Success? ==>
              self !in r.value[cur.value]
              && forall d :: d in clients[cur.value] && d != self ==> d in r.value[cur.value]
  {
    var r := Leave(clients, self, cur);
    assert cur.Some? && cur.value in clients && NoDup(clients[cur.value]) && r.Success? ==>
             self !in r.value[cur.value]
             && forall d :: d in clients[cur.value] && d != self ==> d in r.value[cur.value] by {
      if cur.Some? && cur.value in clients && self in clients[cur.value] && NoDup(clients[cur.value]) {
        RemoveFirstMembers(clients[cur.value], self);
      }
    }
    r
  }
}

=== FILE: pipeline.dfy ===
/** The plugin filter chain (`PluginHandler.filter`): each stage transforms the head of the data,
    the rest of a batch passes through untouched. */
module Pipeline {
  import opened Wrappers
  import opened Bytes

  /** Relayed data: one `bytes` object, or a Python list of such data.
      A list is nested when a stage applied to the head of a list returns a list itself. */
  datatype Payload = Single(bytes: Bytes) | Batch(items: seq<Payload>)

  /** A plugin's `handle_data`, seen as a pure function of the data it is handed. */
  type Stage = Payload -> Payload

  /** `data[0]` on an empty list raises `IndexError`. */
  datatype PipelineError = EmptyBatch

  /** One pass of the loop in `filter`: the stage sees the head of a list, or the whole non-list data. */
  function ApplyStage(stage: Stage, data: Payload): (r: Result<Payload, PipelineError>)
    ensures r.Failure? <==> data == Batch([])
    ensures !data.Batch? ==> r == Success(stage(data))
    ensures data.Batch? && r.Success? ==>
              r.value.Batch? && |r.value.items| == |data.items|
              && r.value.items[0] == stage(data.items[0])
              && r.value.items[1..] == data.items[1..]
  {
    match data
    case Single(_) => Success(stage(data))
    case Batch(items) =>
      if |items| == 0 then Failure(EmptyBatch)
      else Success(Batch([stage(items[0])] + items[1..]))
  }

  /** `PluginHandler.filter`: the stages in configuration order. */
  function Filter(stages: seq<Stage>, data: Payload): (r: Result<Payload, PipelineError>)
    ensures |stages| == 0 ==> r == Success(data)
    ensures data.Batch? ==> (r.Failure? <==> |stages| > 0 && |data.items| == 0)
    ensures data.Batch? && |data.items| > 0 ==>
              r.Success? && r.value.Batch? && |r.value.items| == |data.items|
              && r.value.items[1..] == data.items[1..]
    decreases |stages|
  {
    if |stages| == 0 then Success(data)
    else
      match ApplyStage(stages[0], data)
      case Failure(e) => Failure(e)
      case Success(next) => Filter(stages[1..], next)
  }

  /** The stages composed in order, `pN(...p1(x))`, unfolded from the last stage. */
  function Compose(stages: seq<Stage>, x: Payload): Payload
  {
    if |stages| == 0 then x else stages[|stages| - 1](Compose(stages[..|stages| - 1], x))
  }

  /** Running the first stage, then the others, is the whole composition. */
  lemma {:induction false} ComposeFirst(stages: seq<Stage>, x: Payload)
    requires |stages| > 0
    ensures Compose(stages, x) == Compose(stages[1..], stages[0](x))
    decreases |stages|
  {
    if |stages| > 1 {
      var n := |stages|;
      ComposeFirst(stages[..n - 1], x);
      assert stages[..n - 1][1..] == stages[1..][..n - 2];
      assert stages[..n - 1][..n - 2] == stages[..n - 2];
    } else {
      assert stages[..0] == [];
      assert stages[1..] == [];
    }
  }

  /** The batch rule: on a non-empty list the head goes through every stage in order
      and the tail comes out unchanged, so no stage ever sees it. */
  lemma {:induction false} FilterBatch(stages: seq<Stage>, items: seq<Payload>)
    requires |items| > 0
    ensures Filter(stages, Batch(items)) == Success(Batch([Compose(stages, items[0])] + items[1..]))
    decreases |stages|
  {
    if |stages| == 0 {
      assert [items[0]] + items[1..] == items;
    } else {
      var next := [stages[0](items[0])] + items[1..];
      assert ApplyStage(stages[0], Batch(items)) == Success(Batch(next));
      FilterBatch(stages[1..], next);
      ComposeFirst(stages, items[0]);
      assert next[1..] == items[1..];
    }
  }

  /** The tail of a list never influences the result's head. */
  lemma FilterIgnoresTail(stages: seq<Stage>, head: Payload, tail1: seq<Payload>, tail2: seq<Payload>)
    ensures Filter(stages, Batch([head] + tail1)).value.items[0]
         == Filter(stages, Batch([head] + tail2)).value.items[0]
  {
    FilterBatch(stages, [head] + tail1);
    FilterBatch(stages, [head] + tail2);
  }

  /** True when no stage is handed a list: every intermediate result before each stage is a non-list. */
  ghost predicate StaysSingle(stages: seq<Stage>, data: Payload)
  {
    forall k :: 0 <= k < |stages| ==> !Compose(stages[..k], data).Batch?
  }

  /** On non-list data, as long as the stages keep returning non-lists,
      the result is the plain composition `pN(...p1(data))`. */
  lemma {:induction false} FilterSingle(stages: seq<Stage>, data: Payload)
    requires StaysSingle(stages, data)
    ensures Filter(stages, data) == Success(Compose(stages, data))
    decreases |stages|
  {
    if |stages| > 0 {
      assert stages[..0] == [];
      assert !data.Batch?;
      var next := stages[0](data);
      forall k | 0 <= k < |stages| - 1
        ensures !Compose(stages[1..][..k], next).Batch?
      {
        ComposeFirst(stages[..k + 1], data);
        assert stages[..k + 1][1..] == stages[1..][..k];
        assert stages[..k + 1][0] == stages[0];
      }
      FilterSingle(stages[1..], next);
      ComposeFirst(stages, data);
    }
  }

  /** Splitting the configuration: the later stages continue from what the earlier ones produced,
      which is how a stage returning a list hands the later stages over to the batch rule. */
  lemma {:induction false} FilterAppend(first: seq<Stage>, second: seq<Stage>, data: Payload)
    ensures Filter(first + second, data) ==
              match Filter(first, data)
              case Failure(e) => Failure(e)
              case Success(mid) => Filter(second, mid)
    decreases |first|
  {
    if |first| == 0 {
      assert first + second == second;
    } else {
      assert (first + second)[0] == first[0];
      assert (first + second)[1..] == first[1..] + second;
      match ApplyStage(first[0], data)
      case Failure(_) =>
      case Success(next) => FilterAppend(first[1..], second, next);
    }
  }
}

=== FILE: registry.dfy ===
/** The server's session table `clients` and the three operations on it:
    `add_client`, `remove_client` and `send_to_clients`. */
module Registry {
  import opened Wrappers
  import opened Bytes
  import opened Framing
  import opened Pipeline

  /** The identity of one connection handler (Python compares handlers with `is`). */
  type ClientId = nat

  /** A session number: the header's single unsigned octet. */
  type Session = byte

  /** `self.clients`: each known session's members in join order. */
  type Clients = map<Session, seq<ClientId>>

  /** `list.remove` raises `ValueError` when the client is not in the list. */
  datatype RegistryError = NotAMember

  /** The members of `s`, the empty list when the session is unknown. */
  function Members(clients: Clients, s: Session): seq<ClientId>
  {
    if s in clients then clients[s] else []
  }

  ghost predicate NoDup(xs: seq<ClientId>)
  {
    forall i, j :: 0 <= i < j < |xs| ==> xs[i] != xs[j]
  }

  /** Position of the first occurrence of `c`. */
  function IndexOf(xs: seq<ClientId>, c: ClientId): (i: nat)
    requires c in xs
    ensures i < |xs| && xs[i] == c
    ensures forall j :: 0 <= j < i ==> xs[j] != c
  {
    if xs[0] == c then 0 else 1 + IndexOf(xs[1..], c)
  }

  /** `list.remove(c)`: drops the first occurrence of `c` and keeps the order of the rest. */
  function RemoveFirst(xs: seq<ClientId>, c: ClientId): (r: seq<ClientId>)
    requires c in xs
    ensures r == xs[..IndexOf(xs, c)] + xs[IndexOf(xs, c) + 1..]
  {
    if xs[0] == c then xs[1..]
    else
      var i := IndexOf(xs[1..], c);
      assert IndexOf(xs, c) == i + 1;
      assert xs[..i + 1] == [xs[0]] + xs[1..][..i];
      assert xs[i + 2..] == xs[1..][i + 1..];
      [xs[0]] + RemoveFirst(xs[1..], c)
  }

  /** Where a remaining element came from. */
  lemma RemoveFirstAt(xs: seq<ClientId>, c: ClientId, a: nat)
    requires c in xs && a < |xs| - 1
    ensures |RemoveFirst(xs, c)| == |xs| - 1
    ensures RemoveFirst(xs, c)[a] == xs[if a < IndexOf(xs, c) then a else a + 1]
  {
  }

  /** The tail of a list without repetitions has none either, and lacks the head. */
  lemma NoDupTail(xs: seq<ClientId>)
    requires |xs| > 0 && NoDup(xs)
    ensures NoDup(xs[1..]) && xs[0] !in xs[1..]
  {
    forall i, j | 0 <= i < j < |xs[1..]| ensures xs[1..][i] != xs[1..][j] {
      assert xs[1..][i] == xs[i + 1] && xs[1..][j] == xs[j + 1];
    }
    forall k | 0 <= k < |xs[1..]| ensures xs[1..][k] != xs[0] {
      assert xs[1..][k] == xs[k + 1];
    }
  }

  /** Removing `c` keeps every other element and, when `c` occurs once, leaves no `c` behind. */
  lemma {:induction false} RemoveFirstMembers(xs: seq<ClientId>, c: ClientId)
    requires c in xs && NoDup(xs)
    ensures forall d :: d in RemoveFirst(xs, c) <==> d in xs && d != c
  {
    NoDupTail(xs);
    assert forall d :: d in xs <==> d == xs[0] || d in xs[1..] by {
      assert xs == [xs[0]] + xs[1..];
    }
    if xs[0] != c {
      RemoveFirstMembers(xs[1..], c);
    }
  }

  /** Removing from a list without repetitions leaves a list without repetitions. */
  lemma RemoveFirstNoDup(xs: seq<ClientId>, c: ClientId)
    requires c in xs && NoDup(xs)
    ensures NoDup(RemoveFirst(xs, c))
  {
    var r := RemoveFirst(xs, c);
    forall a, b | 0 <= a < b < |r| ensures r[a] != r[b] {
      RemoveFirstAt(xs, c, a);
      RemoveFirstAt(xs, c, b);
    }
  }

  /** `add_client(client, session)`: nothing for `None`; otherwise the client goes to the end of
      the session's list, which is created empty first if the session is new. */
  function Join(clients: Clients, c: ClientId, s: Option<Session>): (r: Clients)
    ensures s.None? ==> r == clients
    ensures s.Some? ==> r.Keys == clients.Keys + {s.value}
                        && r[s.value] == Members(clients, s.value) + [c]
    ensures forall t :: t in clients && s != Some(t) ==> t in r && r[t] == clients[t]
  {
    match s
    case None => clients
    case Some(k) =>
      var list := if k in clients then clients[k] else [];
      clients[k := list + [c]]
  }

  /** `remove_client(client, session)`: nothing for `None` or an unknown session; otherwise the first
      occurrence of the client leaves the session's list, failing when it is not there. */
  function Leave(clients: Clients, c: ClientId, s: Option<Session>): (r: Result<Clients, RegistryError>)
    ensures s.None? || s.value !in clients ==> r == Success(clients)
    ensures s.Some? && s.value in clients ==> (r.Failure? <==> c !in clients[s.value])
    ensures r.Success? ==> r.value.Keys == clients.Keys
    ensures r.Success? && s.Some? && s.value in clients ==>
              r.value[s.value] == RemoveFirst(clients[s.value], c)
    ensures r.Success? ==> forall t :: t in clients && s != Some(t) ==> r.value[t] == clients[t]
  {
    match s
    case None => Success(clients)
    case Some(k) =>
      if k !in clients then Success(clients)
      else if c !in clients[k] then Failure(NotAMember)
      else Success(clients[k := RemoveFirst(clients[k], c)])
  }

  /** Joining a session the client is not in and then leaving it restores every list
      (the session stays known, possibly with an empty list). */
  lemma LeaveUndoesJoin(clients: Clients, c: ClientId, s: Session)
    requires c !in Members(clients, s)
    ensures Leave(Join(clients, c, Some(s)), c, Some(s)) == Success(clients[s := Members(clients, s)])
  {
    RemoveAppended(Members(clients, s), c);
    var j := Join(clients, c, Some(s));
    assert j == clients[s := Members(clients, s) + [c]];
    assert j[s := Members(clients, s)] == clients[s := Members(clients, s)];
  }

  /** Removing a client just appended to a list it was not in gives the list back. */
  lemma RemoveAppended(ys: seq<ClientId>, c: ClientId)
    requires c !in ys
    ensures RemoveFirst(ys + [c], c) == ys
  {
    var xs := ys + [c];
    var i := IndexOf(xs, c);
    assert forall k :: 0 <= k < |ys| ==> xs[k] == ys[k];
    assert i == |ys|;
    assert xs[..|ys|] == ys;
  }

  // ---------------------------------------------------------------------------
  // Broadcast

  /** One `wfile.write` call on a recipient's connection. */
  datatype Write = Write(to: ClientId, data: Bytes)

  /** Why a broadcast stopped early: `int.to_bytes` overflowed (`OverflowError`),
      or a list element was handed to `wfile.write` (`TypeError`). */
  datatype SendError = LengthOverflow | NotBytes

  /** The writes performed, in order, and the exception that ended the broadcast, if any. */
  datatype Sent = Sent(writes: seq<Write>, failure: Option<SendError>)

  /** Python's `len(msg)`: octets of a `bytes` object, elements of a list. */
  function Len(msg: Payload): nat
  {
    match msg
    case Single(b) => |b|
    case Batch(items) => |items|
  }

  /** The messages a broadcast sends: a list payload item by item, any other payload as a one-element list. */
  function Messages(p: Payload): seq<Payload>
  {
    if p.Batch? then p.items else [p]
  }

  /** A message the loop can write: a `bytes` object whose length fits in the 4-octet prefix. */
  predicate Sendable(msg: Payload)
  {
    msg.Single? && |msg.bytes| < LengthBound
  }

  ghost predicate AllSendable(msgs: seq<Payload>)
  {
    forall i :: 0 <= i < |msgs| ==> Sendable(msgs[i])
  }

  function Contents(msgs: seq<Payload>): (r: seq<Bytes>)
    requires AllSendable(msgs)
    ensures |r| == |msgs| && AllFit(r)
    ensures forall i :: 0 <= i < |msgs| ==> r[i] == msgs[i].bytes
  {
    if |msgs| == 0 then [] else [msgs[0].bytes] + Contents(msgs[1..])
  }

  /** Everything written to `r`, concatenated in order: the byte stream `r` receives. */
  function BytesTo(writes: seq<Write>, r: ClientId): (b: Bytes)
    ensures (forall i :: 0 <= i < |writes| ==> writes[i].to != r) ==> b == []
  {
    if |writes| == 0 then []
    else (if writes[0].to == r then writes[0].data else []) + BytesTo(writes[1..], r)
  }

  lemma {:induction false} BytesToAppend(a: seq<Write>, b: seq<Write>, r: ClientId)
    ensures BytesTo(a + b, r) == BytesTo(a, r) + BytesTo(b, r)
    decreases |a|
  {
    if |a| == 0 {
      assert a + b == b;
    } else {
      assert (a + b)[0] == a[0];
      assert (a + b)[1..] == a[1..] + b;
      BytesToAppend(a[1..], b, r);
    }
  }

  /** The inner loop of `send_to_clients`: each message to one recipient as prefix then body. */
  function SendMessages(to: ClientId, msgs: seq<Payload>): (s: Sent)
    ensures forall i :: 0 <= i < |s.writes| ==> s.writes[i].to == to
    ensures s.failure.None? <==> AllSendable(msgs)
  {
    if |msgs| == 0 then Sent([], None)
    else
      match LengthPrefix(Len(msgs[0]))
      case None => Sent([], Some(LengthOverflow))
      case Some(prefix) =>
        match msgs[0]
        case Batch(_) => Sent([Write(to, prefix)], Some(NotBytes))
        case Single(b) =>
          var rest := SendMessages(to, msgs[1..]);
          assert AllSendable(msgs) <==> Sendable(msgs[0]) && AllSendable(msgs[1..]) by {
            if Sendable(msgs[0]) && AllSendable(msgs[1..]) {
              forall i | 0 <= i < |msgs| ensures Sendable(msgs[i]) {
                if i > 0 { assert msgs[i] == msgs[1..][i - 1]; }
              }
            }
          }
          Sent([Write(to, prefix), Write(to, b)] + rest.writes, rest.failure)
  }

  /** On success, the recipient's stream is exactly the records of the messages, in sequence order. */
  lemma {:induction false} SendMessagesStream(to: ClientId, msgs: seq<Payload>)
    requires AllSendable(msgs)
    ensures BytesTo(SendMessages(to, msgs).writes, to) == EncodeRecords(Contents(msgs))
    decreases |msgs|
  {
    if |msgs| > 0 {
      var prefix := LengthPrefix(Len(msgs[0])).value;
      var b := msgs[0].bytes;
      var rest := SendMessages(to, msgs[1..]);
      assert AllSendable(msgs[1..]) by {
        forall i | 0 <= i < |msgs[1..]| ensures Sendable(msgs[1..][i]) { assert msgs[1..][i] == msgs[i + 1]; }
      }
      SendMessagesStream(to, msgs[1..]);
      BytesToAppend([Write(to, prefix), Write(to, b)], rest.writes, to);
      assert BytesTo([Write(to, prefix), Write(to, b)], to) == prefix + b by {
        assert [Write(to, prefix), Write(to, b)][1..] == [Write(to, b)];
      }
      assert Contents(msgs)[1..] == Contents(msgs[1..]);
    }
  }

  /** The outer loop of `send_to_clients`: members in list order, the originator skipped;
      the first exception ends the whole broadcast. */
  function SendToMembers(members: seq<ClientId>, origin: ClientId, msgs: seq<Payload>): (s: Sent)
    ensures forall i :: 0 <= i < |s.writes| ==> s.writes[i].to != origin && s.writes[i].to in members
  {
    if |members| == 0 then Sent([], None)
    else if members[0] == origin then SendToMembers(members[1..], origin, msgs)
    else
      var first := SendMessages(members[0], msgs);
      if first.failure.Some? then first
      else
        var rest := SendToMembers(members[1..], origin, msgs);
        Sent(first.writes + rest.writes, rest.failure)
  }

  /** `send_to_clients(session, msgs, origin)`. */
  function Broadcast(clients: Clients, s: Option<Session>, p: Payload, origin: ClientId): (out: Sent)
    ensures s.None? || s.value !in clients ==> out == Sent([], None)
    ensures forall i :: 0 <= i < |out.writes| ==>
              out.writes[i].to != origin && out.writes[i].to in Members(clients, s.value)
  {
    if s.None? || s.value !in clients then Sent([], None)
    else SendToMembers(clients[s.value], origin, Messages(p))
  }

  /** With well-formed messages and no repeated member, every member other than the originator
      receives exactly the records of all messages, in sequence order, and nobody else receives anything. */
  lemma {:induction false} SendToMembersDelivers(members: seq<ClientId>, origin: ClientId, msgs: seq<Payload>, r: ClientId)
    requires NoDup(members) && AllSendable(msgs)
    ensures SendToMembers(members, origin, msgs).failure.None?
    ensures BytesTo(SendToMembers(members, origin, msgs).writes, r)
            == if r in members && r != origin then EncodeRecords(Contents(msgs)) else []
    decreases |members|
  {
    if |members| > 0 {
      NoDupTail(members);
      assert r in members <==> r == members[0] || r in members[1..] by {
        assert members == [members[0]] + members[1..];
      }
      SendToMembersDelivers(members[1..], origin, msgs, r);
      if members[0] != origin {
        var first := SendMessages(members[0], msgs);
        var rest := SendToMembers(members[1..], origin, msgs);
        BytesToAppend(first.writes, rest.writes, r);
        if r == members[0] {
          SendMessagesStream(r, msgs);
        }
      }
    }
  }

  /** The same delivery property for a whole `send_to_clients` call. */
  lemma BroadcastDelivers(clients: Clients, s: Session, p: Payload, origin: ClientId, r: ClientId)
    requires s in clients && NoDup(clients[s]) && AllSendable(Messages(p))
    ensures Broadcast(clients, Some(s), p, origin).failure.None?
    ensures BytesTo(Broadcast(clients, Some(s), p, origin).writes, r)
            == if r in clients[s] && r != origin then EncodeRecords(Contents(Messages(p))) else []
  {
    SendToMembersDelivers(clients[s], origin, Messages(p), r);
  }

  /** A recipient that decodes its stream gets back exactly the messages, in sequence order. */
  lemma BroadcastDecodes(clients: Clients, s: Session, p: Payload, origin: ClientId, r: ClientId)
    requires s in clients && NoDup(clients[s]) && AllSendable(Messages(p))
    requires r in clients[s] && r != origin
    ensures DecodeRecords(BytesTo(Broadcast(clients, Some(s), p, origin).writes, r))
            == Some(Contents(Messages(p)))
  {
    BroadcastDelivers(clients, s, p, origin, r);
    RecordsRoundTrip(Contents(Messages(p)));
  }

  /** A broadcast that reaches at least one recipient fails exactly when some message is not
      sendable; with nobody to reach, nothing is attempted and nothing fails. */
  lemma {:induction false} SendToMembersFails(members: seq<ClientId>, origin: ClientId, msgs: seq<Payload>)
    ensures SendToMembers(members, origin, msgs).failure.Some?
            <==> (exists m :: m in members && m != origin) && !AllSendable(msgs)
    decreases |members|
  {
    var others := exists m :: m in members && m != origin;
    if |members| == 0 {
      assert !others;
    } else {
      SendToMembersFails(members[1..], origin, msgs);
      var restOthers := exists m :: m in members[1..] && m != origin;
      assert forall m :: m in members <==> m == members[0] || m in members[1..] by {
        assert members == [members[0]] + members[1..];
      }
      if members[0] == origin {
        assert others <==> restOthers;
      } else {
        assert others by { assert members[0] in members; }
      }
    }
  }

  /** The position of the first message the loop cannot write. */
  function FirstUnsendable(msgs: seq<Payload>): (k: nat)
    requires !AllSendable(msgs)
    ensures k < |msgs| && !Sendable(msgs[k]) && AllSendable(msgs[..k])
  {
    if !Sendable(msgs[0]) then 0
    else
      assert !AllSendable(msgs[1..]) by {
        var i :| 0 <= i < |msgs| && !Sendable(msgs[i]);
        assert msgs[1..][i - 1] == msgs[i];
      }
      var k := 1 + FirstUnsendable(msgs[1..]);
      assert forall i :: 0 <= i < k ==> msgs[..k][i] == if i == 0 then msgs[0] else msgs[1..][..k - 1][i - 1];
      k
  }

  /** The octets of an unsendable message that reach the recipient before the loop raises:
      the length prefix of a list, nothing of an oversized message. */
  function Stub(m: Payload): (b: Bytes)
    requires !Sendable(m)
    ensures Len(m) < LengthBound ==> b == LengthPrefix(Len(m)).value
    ensures Len(m) >= LengthBound ==> b == []
  {
    if Len(m) < LengthBound then LengthPrefix(Len(m)).value else []
  }

  /** When a message cannot be written, the recipient has received the records of the messages
      before it; then, for a list message, the prefix `len(msg)` had already been written when
      writing the list itself raised `TypeError`; an oversized message raises `OverflowError`
      before anything of it is written. Nothing after it is written. */
  lemma {:induction false} SendMessagesAborts(to: ClientId, msgs: seq<Payload>)
    requires !AllSendable(msgs)
    ensures var k := FirstUnsendable(msgs);
            && SendMessages(to, msgs).failure
               == Some(if Len(msgs[k]) < LengthBound then NotBytes else LengthOverflow)
            && BytesTo(SendMessages(to, msgs).writes, to) == EncodeRecords(Contents(msgs[..k])) + Stub(msgs[k])
    decreases |msgs|
  {
    if !Sendable(msgs[0]) {
      SendMessagesStopsAtFirst(to, msgs);
    } else {
      var k := FirstUnsendable(msgs);
      FirstUnsendableTail(msgs);
      SendMessagesAborts(to, msgs[1..]);
      SendMessagesAbortsStep(to, msgs, k);
    }
  }

  /** The inductive step: what the loop writes before stopping, past a sendable first message,
      is that message's record and then what it writes for the rest. */
  lemma SendMessagesAbortsStep(to: ClientId, msgs: seq<Payload>, k: nat)
    requires 0 < k < |msgs| && AllSendable(msgs[..k]) && !Sendable(msgs[k])
    requires BytesTo(SendMessages(to, msgs[1..]).writes, to)
             == EncodeRecords(Contents(msgs[1..][..k - 1])) + Stub(msgs[k])
    ensures BytesTo(SendMessages(to, msgs).writes, to) == EncodeRecords(Contents(msgs[..k])) + Stub(msgs[k])
  {
    assert msgs[..k][0] == msgs[0];
    ContentsFirst(msgs, k);
    var first := EncodeRecord(msgs[0].bytes);
    var before := EncodeRecords(Contents(msgs[1..][..k - 1]));
    var last := Stub(msgs[k]);
    calc {
      BytesTo(SendMessages(to, msgs).writes, to);
    == { SendMessagesFirst(to, msgs); }
      first + (before + last);
    == { ConcatAssociates(first, before, last); }
      (first + before) + last;
    }
  }

  lemma ConcatAssociates(a: Bytes, b: Bytes, c: Bytes)
    ensures a + (b + c) == (a + b) + c
  {
  }

  /** An unsendable first message is where the loop stops: a list still gets its length prefix. */
  lemma SendMessagesStopsAtFirst(to: ClientId, msgs: seq<Payload>)
    requires |msgs| > 0 && !Sendable(msgs[0])
    ensures SendMessages(to, msgs).failure
            == Some(if Len(msgs[0]) < LengthBound then NotBytes else LengthOverflow)
    ensures BytesTo(SendMessages(to, msgs).writes, to) == Stub(msgs[0])
  {
    var s := SendMessages(to, msgs);
    if Len(msgs[0]) < LengthBound {
      assert s.writes == [Write(to, LengthPrefix(Len(msgs[0])).value)];
      assert s.writes[1..] == [];
    }
  }

  /** Past a sendable first message, the first unsendable one is the same message, one place earlier. */
  lemma FirstUnsendableTail(msgs: seq<Payload>)
    requires !AllSendable(msgs) && Sendable(msgs[0])
    ensures !AllSendable(msgs[1..])
    ensures FirstUnsendable(msgs[1..]) == FirstUnsendable(msgs) - 1
    ensures msgs[1..][FirstUnsendable(msgs[1..])] == msgs[FirstUnsendable(msgs)]
  {
  }

  /** A sendable first message is written as its record, and the rest follows. */
  lemma SendMessagesFirst(to: ClientId, msgs: seq<Payload>)
    requires |msgs| > 0 && Sendable(msgs[0])
    ensures SendMessages(to, msgs).failure == SendMessages(to, msgs[1..]).failure
    ensures BytesTo(SendMessages(to, msgs).writes, to)
            == EncodeRecord(msgs[0].bytes) + BytesTo(SendMessages(to, msgs[1..]).writes, to)
  {
    var prefix := LengthPrefix(Len(msgs[0])).value;
    var b := msgs[0].bytes;
    var rest := SendMessages(to, msgs[1..]);
    BytesToAppend([Write(to, prefix), Write(to, b)], rest.writes, to);
    assert BytesTo([Write(to, prefix), Write(to, b)], to) == prefix + b by {
      assert [Write(to, prefix), Write(to, b)][1..] == [Write(to, b)];
    }
  }

  /** The records of the first `k` messages are the first one's record, then those of the next `k - 1`. */
  lemma ContentsFirst(msgs: seq<Payload>, k: nat)
    requires 0 < k <= |msgs| && AllSendable(msgs[..k])
    ensures AllSendable(msgs[1..][..k - 1])
    ensures EncodeRecords(Contents(msgs[..k])) == EncodeRecord(msgs[0].bytes) + EncodeRecords(Contents(msgs[1..][..k - 1]))
  {
    assert msgs[..k][1..] == msgs[1..][..k - 1];
    assert msgs[..k][0] == msgs[0];
    var tail := msgs[1..][..k - 1];
    forall i | 0 <= i < |tail| ensures Sendable(tail[i]) {
      assert tail[i] == msgs[..k][i + 1];
    }
    assert Contents(msgs[..k]) == [msgs[0].bytes] + Contents(msgs[1..][..k - 1]);
  }

  /** The position of the first member the broadcast writes to: members before it are the originator. */
  function FirstOther(members: seq<ClientId>, origin: ClientId): (k: nat)
    ensures k <= |members| && (k < |members| ==> members[k] != origin)
    ensures forall j :: 0 <= j < k ==> members[j] == origin
  {
    if |members| == 0 || members[0] != origin then 0
    else
      var k := 1 + FirstOther(members[1..], origin);
      assert forall j :: 1 <= j < k ==> members[j] == members[1..][j - 1];
      k
  }

  /** Every recipient is sent the same messages, so only the first member other than the originator
      can raise: when some message cannot be written, the broadcast is exactly the writes to that
      member up to the exception, and no later member receives anything. */
  lemma {:induction false} SendToMembersAborts(members: seq<ClientId>, origin: ClientId, msgs: seq<Payload>)
    requires !AllSendable(msgs)
    ensures var k := FirstOther(members, origin);
            SendToMembers(members, origin, msgs)
            == if k < |members| then SendMessages(members[k], msgs) else Sent([], None)
    decreases |members|
  {
    if |members| > 0 && members[0] == origin {
      SendToMembersAborts(members[1..], origin, msgs);
      var k := FirstOther(members[1..], origin);
      assert k < |members[1..]| ==> members[1..][k] == members[k + 1];
    }
  }

  /** Every write goes to a member, and writes to an earlier member precede writes to a later one. */
  ghost predicate InJoinOrder(members: seq<ClientId>, w: seq<Write>)
  {
    && (forall k :: 0 <= k < |w| ==> w[k].to in members)
    && (forall i, j :: 0 <= i < j < |w| ==> IndexOf(members, w[i].to) <= IndexOf(members, w[j].to))
  }

  /** Writes to the first member, followed by writes in order to the remaining members, are in order. */
  lemma InJoinOrderPrepend(members: seq<ClientId>, first: seq<Write>, tail: seq<Write>)
    requires |members| > 0
    requires forall k :: 0 <= k < |first| ==> first[k].to == members[0]
    requires InJoinOrder(members[1..], tail)
    requires forall k :: 0 <= k < |tail| ==> tail[k].to != members[0]
    ensures InJoinOrder(members, first + tail)
  {
    var w := first + tail;
    forall k | 0 <= k < |tail|
      ensures IndexOf(members, tail[k].to) == 1 + IndexOf(members[1..], tail[k].to)
    {
    }
    forall i, j | 0 <= i < j < |w|
      ensures IndexOf(members, w[i].to) <= IndexOf(members, w[j].to)
    {
      if i < |first| {
        assert w[i].to == members[0];
      } else {
        assert w[i] == tail[i - |first|] && w[j] == tail[j - |first|];
      }
    }
  }

  /** Recipients are visited in join order: every write to an earlier member precedes every write
      to a later one. */
  lemma {:induction false} SendToMembersOrder(members: seq<ClientId>, origin: ClientId, msgs: seq<Payload>)
    requires NoDup(members)
    ensures InJoinOrder(members, SendToMembers(members, origin, msgs).writes)
    decreases |members|
  {
    if |members| > 0 {
      NoDupTail(members);
      SendToMembersOrder(members[1..], origin, msgs);
      var tail := SendToMembers(members[1..], origin, msgs).writes;
      assert forall k :: 0 <= k < |tail| ==> tail[k].to in members[1..];
      if members[0] == origin {
        InJoinOrderPrepend(members, [], tail);
        assert [] + tail == tail;
      } else {
        var first := SendMessages(members[0], msgs);
        if first.failure.None? {
          InJoinOrderPrepend(members, first.writes, tail);
        } else {
          InJoinOrderPrepend(members, first.writes, []);
          assert first.writes + [] == first.writes;
        }
      }
    }
  }
}

=== FILE: relay.dfy ===
/** The server as a whole, with its connection handlers run one event at a time: the session table
    and every live handler's `self.session`, and the invariant that ties them together. */
module Relay {
  import opened Wrappers
  import opened Bytes
  import opened Framing
  import opened Pipeline
  import opened Registry
  import opened Handler

  /** The shared table and the `self.session` of every connection whose handler is still running. */
  datatype World = World(clients: Clients, conns: map<ClientId, Option<Session>>)

  /** The server before its first connection. */
  const Empty: World := World(map[], map[])

  /** What happens on one connection: it is accepted (`setup`), its handler gets a whole frame,
      or its reads end (short or timed-out header, timed-out payload) and `finish` runs. */
  datatype Event = Connect(client: ClientId) | Receive(client: ClientId, frame: Frame) | Disconnect(client: ClientId)

  /** The world after an event, the writes it caused, and whether `list.remove` raised on the way. */
  datatype Transition = Transition(world: World, writes: seq<Write>, faulted: bool)

  /** `finish` for `c` over the table `clients`: the handler is gone afterwards. */
  function Close(conns: map<ClientId, Option<Session>>, c: ClientId, clients: Clients, session: Option<Session>): (t: Transition)
    ensures c !in t.world.conns && t.world.conns == conns - {c} && t.writes == []
    ensures t.faulted <==> Finish(clients, c, session).Failure?
  {
    match Finish(clients, c, session)
    case Success(left) => Transition(World(left, conns - {c}), [], false)
    case Failure(_) => Transition(World(clients, conns - {c}), [], true)
  }

  /** One event. Events for a connection that is not (or no longer) open change nothing, and a
      frame that ends the handler's loop runs `finish` at once. */
  function Step(w: World, stages: seq<Stage>, e: Event): (t: Transition)
    ensures forall d :: d != e.client ==> (d in t.world.conns <==> d in w.conns)
    ensures forall d :: d != e.client && d in w.conns ==> t.world.conns[d] == w.conns[d]
    ensures e.Connect? && e.client !in w.conns ==> t.world.conns == w.conns[e.client := None] && t.world.clients == w.clients
    ensures e.Disconnect? ==> e.client !in t.world.conns
    ensures forall i :: 0 <= i < |t.writes| ==> t.writes[i].to != e.client
  {
    var c := e.client;
    match e
    case Connect(_) =>
      if c in w.conns then Transition(w, [], false)
      else Transition(World(w.clients, w.conns[c := None]), [], false)
    case Receive(_, f) =>
      if c !in w.conns then Transition(w, [], false)
      else
        var o := HandleFrame(w.clients, stages, c, w.conns[c], f);
        if o.exit.None? then Transition(World(o.clients, w.conns[c := o.session]), o.writes, false)
        else
          var fin := Close(w.conns, c, o.clients, o.session);
          Transition(fin.world, o.writes, fin.faulted || o.exit == Some(LeaveFault))
    case Disconnect(_) =>
      if c !in w.conns then Transition(w, [], false)
      else Close(w.conns, c, w.clients, w.conns[c])
  }

  /** A run of events from `w`, in order; the writes of all events, concatenated. */
  function Run(w: World, stages: seq<Stage>, events: seq<Event>): Transition
    decreases |events|
  {
    if |events| == 0 then Transition(w, [], false)
    else
      var first := Step(w, stages, events[0]);
      var rest := Run(first.world, stages, events[1..]);
      Transition(rest.world, first.writes + rest.writes, first.faulted || rest.faulted)
  }

  // ---------------------------------------------------------------------------
  // The membership invariant

  /** `c` is in the list of session `s`. */
  predicate InList(clients: Clients, s: Session, c: ClientId)
  {
    s in clients && c in clients[s]
  }

  /** A client is in the list of `s` exactly when its handler's current session is `s`,
      and no list holds a client twice; so each client is in at most one list. */
  ghost predicate Consistent(w: World)
  {
    && (forall s: Session, c: ClientId :: InList(w.clients, s, c) <==> c in w.conns && w.conns[c] == Some(s))
    && (forall s :: s in w.clients ==> NoDup(w.clients[s]))
  }

  lemma EmptyConsistent()
    ensures Consistent(Empty)
  {
  }

  /** Leaving the current session never raises, and afterwards the client is in no list. */
  lemma Detach(w: World, c: ClientId)
    requires Consistent(w) && c in w.conns
    ensures Finish(w.clients, c, w.conns[c]).Success?
    ensures Consistent(World(Finish(w.clients, c, w.conns[c]).value, w.conns[c := None]))
  {
    var cur := w.conns[c];
    if cur.Some? {
      var s := cur.value;
      assert InList(w.clients, s, c);
      var left := Finish(w.clients, c, cur).value;
      RemoveFirstNoDup(w.clients[s], c);
      RemoveFirstMembers(w.clients[s], c);
      var w' := World(left, w.conns[c := None]);
      forall t: Session, d: ClientId
        ensures InList(w'.clients, t, d) <==> d in w'.conns && w'.conns[d] == Some(t)
      {
        assert InList(w.clients, t, d) <==> d in w.conns && w.conns[d] == Some(t);
      }
    } else {
      assert forall s: Session :: !InList(w.clients, s, c);
      assert w.conns[c := None] == w.conns;
    }
  }

  /** A client in no list that joins `m` keeps the world consistent. */
  lemma Attach(w: World, c: ClientId, m: Session)
    requires Consistent(w) && c in w.conns && w.conns[c] == None
    ensures Consistent(World(Join(w.clients, c, Some(m)), w.conns[c := Some(m)]))
  {
    var w' := World(Join(w.clients, c, Some(m)), w.conns[c := Some(m)]);
    assert !InList(w.clients, m, c);
    assert c !in Members(w.clients, m);
    forall t: Session, d: ClientId
      ensures InList(w'.clients, t, d) <==> d in w'.conns && w'.conns[d] == Some(t)
    {
      assert InList(w.clients, t, d) <==> d in w.conns && w.conns[d] == Some(t);
      if t == m {
        assert d in w'.clients[m] <==> d in Members(w.clients, m) || d == c;
      }
    }
    var list := Members(w.clients, m) + [c];
    assert NoDup(list) by {
      if m in w.clients {
        assert NoDup(w.clients[m]);
      }
    }
  }

  /** A client in no list can be forgotten. */
  lemma Drop(w: World, c: ClientId)
    requires Consistent(w) && c in w.conns && w.conns[c] == None
    ensures Consistent(World(w.clients, w.conns - {c}))
  {
    var w' := World(w.clients, w.conns - {c});
    forall t: Session, d: ClientId
      ensures InList(w'.clients, t, d) <==> d in w'.conns && w'.conns[d] == Some(t)
    {
      assert InList(w.clients, t, d) <==> d in w.conns && w.conns[d] == Some(t);
    }
  }

  /** `finish` from a consistent world never raises and keeps the world consistent. */
  lemma CloseConsistent(w: World, c: ClientId)
    requires Consistent(w) && c in w.conns
    ensures !Close(w.conns, c, w.clients, w.conns[c]).faulted
    ensures Consistent(Close(w.conns, c, w.clients, w.conns[c]).world)
  {
    Detach(w, c);
    var w1 := World(Finish(w.clients, c, w.conns[c]).value, w.conns[c := None]);
    Drop(w1, c);
    assert w1.conns - {c} == w.conns - {c};
  }

  /** Every event keeps the world consistent, and no `list.remove` ever raises. */
  lemma StepPreserves(w: World, stages: seq<Stage>, e: Event)
    requires Consistent(w)
    ensures Consistent(Step(w, stages, e).world)
    ensures !Step(w, stages, e).faulted
  {
    var c := e.client;
    match e
    case Connect(_) =>
      if c !in w.conns {
        var w' := World(w.clients, w.conns[c := None]);
        forall t: Session, d: ClientId
          ensures InList(w'.clients, t, d) <==> d in w'.conns && w'.conns[d] == Some(t)
        {
          assert InList(w.clients, t, d) <==> d in w.conns && w.conns[d] == Some(t);
        }
      }
    case Receive(_, f) =>
      if c in w.conns {
        var cur := w.conns[c];
        var o := HandleFrame(w.clients, stages, c, cur, f);
        if Ends(cur, f) {
          CloseConsistent(w, c);
        } else if cur == Some(f.session) {
          if o.exit.None? {
            assert w.conns[c := o.session] == w.conns;
          } else {
            CloseConsistent(w, c);
          }
        } else {
          Detach(w, c);
          var w1 := World(Finish(w.clients, c, cur).value, w.conns[c := None]);
          Attach(w1, c, f.session);
          var w2 := World(Join(w1.clients, c, Some(f.session)), w1.conns[c := Some(f.session)]);
          assert o.clients == w2.clients && o.session == Some(f.session);
          assert w2.conns == w.conns[c := o.session];
          if o.exit.Some? {
            CloseConsistent(w2, c);
            assert w2.conns - {c} == w.conns - {c};
          }
        }
      }
    case Disconnect(_) =>
      if c in w.conns {
        CloseConsistent(w, c);
      }
  }

  /** The relay's promise, stated over the world: a frame that does not end the loop, whose payload
      the plugins turn into a sendable `bytes` object, reaches every other handler associated with
      the frame's session (the sender's new session) as exactly one record of the filtered payload,
      reaches nobody else, and leaves the sender associated with that session. */
  lemma FrameReachesSession(w: World, stages: seq<Stage>, c: ClientId, f: Frame, r: ClientId)
    requires Consistent(w) && c in w.conns && !Ends(w.conns[c], f)
    requires StaysSingle(stages, Single(f.payload)) && Sendable(Compose(stages, Single(f.payload)))
    ensures var t := Step(w, stages, Receive(c, f));
            && !t.faulted
            && c in t.world.conns && t.world.conns[c] == Some(f.session)
            && BytesTo(t.writes, r)
               == if r != c && r in w.conns && w.conns[r] == Some(f.session)
                  then EncodeRecord(Compose(stages, Single(f.payload)).bytes) else []
  {
    var cur := w.conns[c];
    var o := HandleFrame(w.clients, stages, c, cur, f);
    var w2: World;
    if cur == Some(f.session) {
      w2 := w;
      assert w.conns[c := Some(f.session)] == w.conns;
    } else {
      Detach(w, c);
      var w1 := World(Finish(w.clients, c, cur).value, w.conns[c := None]);
      Attach(w1, c, f.session);
      w2 := World(Join(w1.clients, c, Some(f.session)), w1.conns[c := Some(f.session)]);
    }
    assert Consistent(w2) && o.clients == w2.clients && w2.conns == w.conns[c := Some(f.session)];
    assert cur != Some(f.session) ==> !InList(w.clients, f.session, c);
    HandleFrameRelays(w.clients, stages, c, cur, f, r);
    assert r in Members(o.clients, f.session) <==> InList(w2.clients, f.session, r);
  }

  /** A frame that ends the handler's loop, by a `break` or by an exception, ends the connection:
      `finish` runs at once, the handler is gone and its client is in no list. A frame that ends the
      loop before anything is done writes nothing and has the same effect as the reads ending. */
  lemma EndingFrameFinishes(w: World, stages: seq<Stage>, c: ClientId, f: Frame)
    requires Consistent(w) && c in w.conns
    requires HandleFrame(w.clients, stages, c, w.conns[c], f).exit.Some?
    ensures var t := Step(w, stages, Receive(c, f));
            && c !in t.world.conns
            && (forall s: Session :: !InList(t.world.clients, s, c))
            && (Ends(w.conns[c], f) ==> t.writes == [] && t.world == Step(w, stages, Disconnect(c)).world)
  {
    StepPreserves(w, stages, Receive(c, f));
  }

  /** Any run of events keeps the world consistent and never makes `list.remove` raise. */
  lemma {:induction false} RunPreserves(w: World, stages: seq<Stage>, events: seq<Event>)
    requires Consistent(w)
    ensures Consistent(Run(w, stages, events).world)
    ensures !Run(w, stages, events).faulted
    decreases |events|
  {
    if |events| > 0 {
      StepPreserves(w, stages, events[0]);
      RunPreserves(Step(w, stages, events[0]).world, stages, events[1..]);
    }
  }

  /** From a fresh server, after any interleaving of connections, frames and disconnections:
      a client is in the list of `s` exactly when its current session is `s`, at most once,
      a client whose handler has finished is in no list, and no `list.remove` raised. */
  lemma RelayInvariant(stages: seq<Stage>, events: seq<Event>)
    ensures var t := Run(Empty, stages, events);
            && !t.faulted
            && (forall s: Session, c: ClientId :: InList(t.world.clients, s, c) <==> c in t.world.conns && t.world.conns[c] == Some(s))
            && (forall c :: c !in t.world.conns ==> forall s: Session :: !InList(t.world.clients, s, c))
            && (forall s :: s in t.world.clients ==> NoDup(t.world.clients[s]))
  {
    EmptyConsistent();
    RunPreserves(Empty, stages, events);
  }

  // ---------------------------------------------------------------------------
  // One connection, from its bytes

  /** Every event is about `c` and none accepts a connection. */
  ghost predicate OnlyAbout(c: ClientId, events: seq<Event>)
  {
    forall i :: 0 <= i < |events| ==> events[i].client == c && !events[i].Connect?
  }

  /** A suffix of such events is still about `c` only. */
  lemma OnlyAboutTail(c: ClientId, events: seq<Event>)
    requires |events| > 0 && OnlyAbout(c, events)
    ensures OnlyAbout(c, events[1..])
  {
    forall i | 0 <= i < |events[1..]| ensures events[1..][i].client == c && !events[1..][i].Connect? {
      assert events[1..][i] == events[i + 1];
    }
  }

  /** The events one connection produces from the octets its peer sends: one `Receive` per frame the
      handler reads, in order, and the end of its reads once no whole frame is left. */
  function Frames(c: ClientId, input: Bytes, ending: Ending): (evs: seq<Event>)
    ensures |evs| > 0 && evs[|evs| - 1] == Disconnect(c)
    ensures OnlyAbout(c, evs)
    decreases |input|
  {
    match ReadFrame(input, ending)
    case Received(f, rest) => [Receive(c, f)] + Frames(c, rest, ending)
    case _ => [Disconnect(c)]
  }

  /** The whole life of connection `c`: accepted, then its frames, then its end. */
  function Events(c: ClientId, input: Bytes, ending: Ending): seq<Event>
  {
    [Connect(c)] + Frames(c, input, ending)
  }

  /** A run splits after its first event. */
  lemma RunFirst(w: World, stages: seq<Stage>, events: seq<Event>)
    requires |events| > 0
    ensures var first := Step(w, stages, events[0]);
            && Run(w, stages, events).world == Run(first.world, stages, events[1..]).world
            && Run(w, stages, events).writes == first.writes + Run(first.world, stages, events[1..]).writes
  {
  }

  /** Frames and reads' end for a connection whose handler has finished change nothing. */
  lemma {:induction false} IdleRun(w: World, stages: seq<Stage>, c: ClientId, events: seq<Event>)
    requires c !in w.conns && OnlyAbout(c, events)
    ensures Run(w, stages, events).world == w && Run(w, stages, events).writes == []
    decreases |events|
  {
    if |events| > 0 {
      assert Step(w, stages, events[0]) == Transition(w, [], false);
      OnlyAboutTail(c, events);
      IdleRun(w, stages, c, events[1..]);
    }
  }

  /** Running what is left of the connection from `w`, after `writes`, ends where `whole` ends. */
  ghost predicate Completes(w: World, stages: seq<Stage>, pending: seq<Event>, writes: seq<Write>, whole: Transition)
  {
    Run(w, stages, pending).world == whole.world && writes + Run(w, stages, pending).writes == whole.writes
  }

  /** One step of a run of `c`'s remaining events keeps `Completes` while the handler lives,
      and reaches the end of the run once it has finished. */
  lemma RunAdvance(w: World, stages: seq<Stage>, c: ClientId, events: seq<Event>, writes: seq<Write>, whole: Transition)
    requires |events| > 0 && OnlyAbout(c, events)
    requires Completes(w, stages, events, writes, whole)
    ensures var t := Step(w, stages, events[0]);
            if c in t.world.conns then Completes(t.world, stages, events[1..], writes + t.writes, whole)
            else t.world == whole.world && writes + t.writes == whole.writes
  {
    var t := Step(w, stages, events[0]);
    RunFirst(w, stages, events);
    if c !in t.world.conns {
      OnlyAboutTail(c, events);
      IdleRun(t.world, stages, c, events[1..]);
    }
  }

  /** The next event of a connection is what the next read gives; after a frame come the events of the rest. */
  lemma FramesNext(c: ClientId, input: Bytes, ending: Ending)
    ensures ReadFrame(input, ending).Received? ==>
              && Frames(c, input, ending)[0] == Receive(c, ReadFrame(input, ending).frame)
              && Frames(c, input, ending)[1..] == Frames(c, ReadFrame(input, ending).rest, ending)
    ensures !ReadFrame(input, ending).Received? ==> Frames(c, input, ending) == [Disconnect(c)]
  {
  }

  /** What the handler's next read of `input` amounts to: a frame, or the end of its reads. */
  function NextEvent(c: ClientId, input: Bytes, ending: Ending): (e: Event)
    ensures e == Frames(c, input, ending)[0]
  {
    match ReadFrame(input, ending)
    case Received(f, _) => Receive(c, f)
    case _ => Disconnect(c)
  }

  /** What is left of `input` after the handler's next read. */
  function NextInput(input: Bytes, ending: Ending): (rest: Bytes)
    ensures |rest| <= |input|
    ensures ReadFrame(input, ending).Received? ==> |rest| < |input|
  {
    match ReadFrame(input, ending)
    case Received(_, rest) => rest
    case _ => input
  }

  /** One turn of the handler's loop: when the handler lives on, what is left of the connection's
      events is those of the rest of its input; when it has finished, the whole run has been done. */
  lemma ServeTurn(w: World, stages: seq<Stage>, c: ClientId, input: Bytes, ending: Ending, writes: seq<Write>, whole: Transition)
    requires Completes(w, stages, Frames(c, input, ending), writes, whole)
    ensures var t := Step(w, stages, NextEvent(c, input, ending));
            if c in t.world.conns then
              && ReadFrame(input, ending).Received?
              && Completes(t.world, stages, Frames(c, NextInput(input, ending), ending), writes + t.writes, whole)
            else t.world == whole.world && writes + t.writes == whole.writes
  {
    var evs := Frames(c, input, ending);
    FramesNext(c, input, ending);
    RunAdvance(w, stages, c, evs, writes, whole);
  }

  /** The handler of connection `c` from `setup` to `finish`, reading its frames from `input`
      (all octets the peer sends before the stream ends as `ending`) while no other handler runs. */
  method Serve(w: World, stages: seq<Stage>, c: ClientId, input: Bytes, ending: Ending)
    returns (w': World, writes: seq<Write>)
    requires Consistent(w) && c !in w.conns
    ensures Consistent(w')
    ensures c !in w'.conns && forall s: Session :: !InList(w'.clients, s, c)
    ensures forall d :: d != c ==> (d in w'.conns <==> d in w.conns)
    ensures forall d :: d in w.conns ==> w'.conns[d] == w.conns[d]
    ensures forall i :: 0 <= i < |writes| ==> writes[i].to != c
    // The handler processes the frames it reads in order, stops at the first one that ends its loop,
    // and its effect is that of the connection's whole event sequence.
    ensures w' == Run(w, stages, Events(c, input, ending)).world
    ensures writes == Run(w, stages, Events(c, input, ending)).writes
  {
    ghost var whole := Run(w, stages, Events(c, input, ending));
    RunFirst(w, stages, Events(c, input, ending));
    assert Events(c, input, ending)[1..] == Frames(c, input, ending);
    StepPreserves(w, stages, Connect(c));
    w' := Step(w, stages, Connect(c)).world;
    assert Step(w, stages, Connect(c)).writes == [];
    writes := [];
    var rest := input;
    var open := true;
    while open
      invariant Consistent(w')
      invariant open <==> c in w'.conns
      invariant forall d :: d != c ==> (d in w'.conns <==> d in w.conns)
      invariant forall d :: d in w.conns ==> w'.conns[d] == w.conns[d]
      invariant forall i :: 0 <= i < |writes| ==> writes[i].to != c
      invariant open ==> Completes(w', stages, Frames(c, rest, ending), writes, whole)
      invariant !open ==> w' == whole.world && writes == whole.writes
      decreases |rest| + (if open then 1 else 0)
    {
      var event := NextEvent(c, rest, ending);
      ServeTurn(w', stages, c, rest, ending, writes, whole);
      StepPreserves(w', stages, event);
      var t := Step(w', stages, event);
      w' := t.world;
      writes := writes + t.writes;
      rest := NextInput(rest, ending);
      open := c in w'.conns;
    }
  }

  // ---------------------------------------------------------------------------
  // Two concrete runs

  lemma SmallPrefixes()
    ensures LengthPrefix(1) == Some([0, 0, 0, 1])
    ensures LengthPrefix(3) == Some([0, 0, 0, 3])
  {
    LengthBoundIsFourOctets();
    assert ToBigEndian(0, 0) == [];
    assert ToBigEndian(0, 1) == [0];
    assert ToBigEndian(0, 2) == [0, 0];
    assert ToBigEndian(0, 3) == [0, 0, 0];
    assert ToBigEndian(1, 4) == [0, 0, 0, 1];
    assert ToBigEndian(3, 4) == [0, 0, 0, 3];
  }

  /** A one-octet-or-longer frame relayed with no plugins to the members of its session. */
  lemma RelayPlain(w: World, c: ClientId, f: Frame, others: seq<ClientId>)
    requires c in w.conns && w.conns[c] == Some(f.session) && f.length > 0
    requires f.session in w.clients && w.clients[f.session] == others
    requires |f.payload| < LengthBound
    ensures Step(w, [], Receive(c, f)) ==
              Transition(w, SendToMembers(others, c, [Single(f.payload)]).writes, false)
  {
    assert AllSendable([Single(f.payload)]);
    SendToMembersFails(others, c, [Single(f.payload)]);
    assert w.conns[c := Some(f.session)] == w.conns;
  }

  /** Client 1, not yet associated, announces session 7 while alone: it joins and reaches nobody. */
  lemma AbcJoinFirst(conns: map<ClientId, Option<Session>>)
    requires 1 in conns && conns[1] == None
    ensures Step(World(map[], conns), [], Receive(1, Frame(1, 7, [0x78])))
            == Transition(World(map[7 := [1]], conns[1 := Some(7)]), [], false)
  {
    var j := Join(map[], 1, Some(7));
    assert j.Keys == {7} && j[7] == [1];
    assert j == map[7 := [1]];
    assert SendToMembers([1], 1, [Single([0x78])]) == Sent([], None);
  }

  /** Client 2 announces session 7 after client 1: it joins behind client 1, and client 1 gets the record. */
  lemma AbcJoinSecond(conns: map<ClientId, Option<Session>>)
    requires 2 in conns && conns[2] == None
    ensures Step(World(map[7 := [1]], conns), [], Receive(2, Frame(1, 7, [0x79])))
            == Transition(World(map[7 := [1, 2]], conns[2 := Some(7)]),
                          [Write(1, [0, 0, 0, 1]), Write(1, [0x79])], false)
  {
    SmallPrefixes();
    var j := Join(map[7 := [1]], 2, Some(7));
    assert j.Keys == {7} && j[7] == [1, 2];
    assert j == map[7 := [1, 2]];
    assert SendToMembers([2], 2, [Single([0x79])]) == Sent([], None);
    assert SendToMembers([1, 2], 2, [Single([0x79])]) == Sent([Write(1, [0, 0, 0, 1]), Write(1, [0x79])], None);
  }

  /** Clients 1 and 2 both in session 7, client 1 first. */
  const Paired: World := World(map[7 := [1, 2]], map[1 := Some(7), 2 := Some(7)])

  /** `Paired` after client 1 has moved to session 9. */
  const Moved: World := World(map[7 := [2], 9 := [1]], map[1 := Some(9), 2 := Some(7)])

  /** Client 1 relays "abc" to session 7, where client 2 is the only other member. */
  lemma AbcRelay()
    ensures Step(Paired, [], Receive(1, Frame(3, 7, [0x61, 0x62, 0x63])))
            == Transition(Paired, [Write(2, [0, 0, 0, 3]), Write(2, [0x61, 0x62, 0x63])], false)
  {
    SmallPrefixes();
    assert SendToMembers([2], 1, [Single([0x61, 0x62, 0x63])]).writes
           == [Write(2, [0, 0, 0, 3]), Write(2, [0x61, 0x62, 0x63])];
    assert SendToMembers([1, 2], 1, [Single([0x61, 0x62, 0x63])]).writes
           == [Write(2, [0, 0, 0, 3]), Write(2, [0x61, 0x62, 0x63])] by {
      assert [1, 2][1..] == [2];
    }
    RelayPlain(Paired, 1, Frame(3, 7, [0x61, 0x62, 0x63]), [1, 2]);
  }

  /** Client 1 moves from session 7 to session 9: it leaves 7, keeping client 2 there, and joins 9,
      where nobody else is. */
  lemma MoveToNine()
    ensures Step(Paired, [], Receive(1, Frame(1, 9, [0x7a]))) == Transition(Moved, [], false)
  {
    var left := Finish(Paired.clients, 1, Some(7)).value;
    assert left == map[7 := [2]] by {
      assert IndexOf([1, 2], 1) == 0;
      assert left[7] == [2];
    }
    var j := Join(left, 1, Some(9));
    assert j.Keys == {7, 9} && j[9] == [1] && j[7] == [2];
    assert j == map[7 := [2], 9 := [1]];
    assert SendToMembers([1], 1, [Single([0x7a])]) == Sent([], None);
    assert Paired.conns[1 := Some(9)] == Moved.conns;
  }

  /** After the move, a frame from client 2 to session 7 no longer reaches client 1. */
  lemma MovedClientNotReached()
    ensures Step(Moved, [], Receive(2, Frame(1, 7, [0x7b]))) == Transition(Moved, [], false)
  {
    assert SendToMembers([2], 2, [Single([0x7b])]) == Sent([], None);
    RelayPlain(Moved, 2, Frame(1, 7, [0x7b]), [2]);
  }
}

=== FILE: wrappers.dfy ===
/** Failure-compatible wrappers shared by the relay model. */
module Wrappers {

  /** Python's `None` versus a present value. */
  datatype Option<+T> = None | Some(value: T)

  /** The outcome of an operation that raises in Python: `list.remove`, `int.to_bytes`, `data[0]`. */
  datatype Result<+T, +E> = Success(value: T) | Failure(error: E)
}
